=== FILE: README.md ===
# Orange Line segment telemetry — a Dafny model

Two polling programs watch the MBTA Orange Line:

- `BluebikesOrangeLineCapacity` assigns Bluebikes stations once to a south segment (Forest Hills to Ruggles) and a north segment (Malden Center to Sullivan). A station belongs to a segment when it is within 500 m of one of that segment's Orange Line stations. The program then polls the station-status feed 240 times and writes one CSV row per tick: the bikes and the capacity (bikes plus free docks) summed per segment.
- `SegmentHeadwayTracker` polls the GTFS-realtime trip-updates feed 240 times. Each time it collects the predicted arrivals at the boundary stops Sullivan (`70030`, north) and Ruggles (`70010`, south). It sorts them and turns consecutive gaps into whole minutes (the headways). For each successful poll it writes one row and appends the headways to a global per-segment history.

This project models the pure core of both programs as functions over immutable records, plus a step model of each polling loop over a sequence of per-tick environment outcomes. The outcomes are fetch results and how each pause ends.

| file | module | models |
|---|---|---|
| `common.dfy` | `Common` | optional decoded fields; how a pause ends |
| `geofence.dfy` | `Geofence` | the coordinate map, the radius test, segment membership |
| `capacity_aggregation.dfy` | `CapacityAggregation` | the per-tick reduction of status records into four totals |
| `capacity_collector.dfy` | `CapacityCollector` | setup failure, the tick loop, one row per tick |
| `arrivals.dfy` | `Arrivals` | collecting arrival times at the two boundary stops |
| `headways.dfy` | `HeadwayAnalyzer` | `computeHeadways`: sort in place, then truncating gaps |
| `headway_tracker.dfy` | `HeadwayTracker` | the poll loop, rows and the global histories |

Great-circle distance is a parameter `dist: (Coord, Coord) -> real`. The comparison against `RadiusMeters` (500.0) and the reference-point coordinates are kept exactly as written. Latitudes and longitudes are `real`.

The two polling loops take their environment as data. `CapacityCollector.PollTicks` reads a `Tick` per iteration: the status fetch result and how the following pause ends. `HeadwayTracker.PollFrom` reads a `Poll` per iteration: failed download, undecodable bytes, or a decoded feed together with how the following pause ends. The loop takes the per-poll computation as a parameter `analyze`, and `HeadwayTracker.Track` instantiates it with `HeadwayTracker.Analyze`, the real filter-sort-difference pipeline. This keeps the bookkeeping proofs separate from the arithmetic.

### Behaviour worth noting

- In the headway program a decode failure is not local to one poll: `GtfsRealtime.FeedMessage.parseFrom` throws out of `main` (`throws Exception`), so the first undecodable message ends the whole run with no final summary (`ParseAborted`).
- An interrupted pause ends the headway program through the same escaping exception (`InterruptAborted`). The capacity program instead `break`s out of its loop and finishes normally.
- The headway program pauses after every successful poll, including the last one. A failed download `continue`s, so that poll writes no row, adds no headways and skips the pause. The capacity program pauses only between ticks, never after the last one.
- Both programs pause a fixed interval after a tick's work. The pause is not measured from the tick's start.
- A station matching both segments is counted in both totals. The two membership tests are independent `if`s.

## Model

| member | source | states |
|---|---|---|
| Geofence.CoordinateMapSpec | src/main/java/edu/wit/BluebikesOrangeLineCapacity.java:168-183 | the coordinate map has a key for exactly the ids in the decoded feed; a repeated id keeps its last entry's coordinates; the map is empty exactly when the feed had no entries |
| Geofence.FirstWithin | src/main/java/edu/wit/BluebikesOrangeLineCapacity.java:194-205 | the scan over one segment's reference points (stopping at the first hit) reports a hit iff some reference point lies within 500 m of the station |
| Geofence.AssignStationsToSegments | src/main/java/edu/wit/BluebikesOrangeLineCapacity.java:185-207 | an id is in `south` iff it is a key of the coordinate map and some south reference point is within radius; `north` likewise with the north points; the two are decided independently and both sets are subsets of the map's keys |
| Geofence.StationOnReferencePointIsMember | src/main/java/edu/wit/BluebikesOrangeLineCapacity.java:194-205 | when distance from a point to itself is 0, a station placed exactly on a segment's reference point is a member of that segment |
| CapacityAggregation.Tally | src/main/java/edu/wit/BluebikesOrangeLineCapacity.java:94-106 | one status record changes no total when its id is in neither set; a south member adds its bikes and bikes+docks to the south totals, a north member to the north totals, and a station in both sets adds to both |
| CapacityAggregation.AggregateIsSegmentSums | src/main/java/edu/wit/BluebikesOrangeLineCapacity.java:93-107 | after the station loop, each segment's bikes and capacity are the sums of bikes and of bikes+docks over exactly the status records whose id is in that segment's set |
| CapacityAggregation.CapacitySumIsBikesPlusDocks | src/main/java/edu/wit/BluebikesOrangeLineCapacity.java:95-97 | a segment's summed capacity is its summed bikes plus its summed free docks, all from the same status records |
| CapacityAggregation.NonMemberIgnored | src/main/java/edu/wit/BluebikesOrangeLineCapacity.java:99-106 | a status record whose id is in neither set leaves all four totals unchanged wherever it appears in the feed |
| CapacityAggregation.SharedStationCountsTwice | src/main/java/edu/wit/BluebikesOrangeLineCapacity.java:99-106 | a station id in both sets adds its bikes and its capacity to the south totals and to the north totals alike |
| CapacityAggregation.AggregateStatus | src/main/java/edu/wit/BluebikesOrangeLineCapacity.java:85-107 | the station loop, starting from four zeros, ends with each total equal to the corresponding sum over the member status records |
| CapacityAggregation.ExampleOneMemberOneFar | src/main/java/edu/wit/BluebikesOrangeLineCapacity.java:93-107 | a member station with 5 bikes and 3 docks plus a non-member give south totals 5 and 8, and the non-member adds nothing |
| CapacityCollector.TickTotals | src/main/java/edu/wit/BluebikesOrangeLineCapacity.java:85-110 | a tick whose fetch or parse throws before the station loop keeps all four totals at 0; otherwise its totals are the member sums of that tick's feed |
| CapacityCollector.PollTicks | src/main/java/edu/wit/BluebikesOrangeLineCapacity.java:81-139 | the loop writes rows for iterations i, i+1, … in order, each with that tick's totals; it pauses only when another tick follows, so completed pauses are rows−1; an interrupted pause ends the loop right after its row; without one, every iteration up to N writes a row |
| CapacityCollector.Collect | src/main/java/edu/wit/BluebikesOrangeLineCapacity.java:58-81 | ticks run iff the station-information feed decoded to at least one entry; a failed info fetch ends the program through the outer handler; an empty coordinate map returns before any tick; membership is computed once from the coordinate map |
| CapacityCollector.UninterruptedRunWritesEveryRow | src/main/java/edu/wit/BluebikesOrangeLineCapacity.java:81-139 | without an interrupt the loop writes exactly N rows numbered 1..N and makes N−1 pauses |
| CapacityCollector.ExampleSecondTickFails | src/main/java/edu/wit/BluebikesOrangeLineCapacity.java:81-139 | three ticks whose second fetch fails still give three rows, with row 2 carrying iteration 2 and zero totals |
| Arrivals.UpdateArrivalsAppend | src/main/java/edu/wit/SegmentHeadwayTracker.java:61-69 | collecting from two update lists in a row yields the first list's arrivals followed by the second's (feed order is kept) |
| Arrivals.FeedArrivalsAppend | src/main/java/edu/wit/SegmentHeadwayTracker.java:57-70 | collecting from two runs of entities yields the first run's arrivals followed by the second's |
| Arrivals.UpdateArrivalsMembership | src/main/java/edu/wit/SegmentHeadwayTracker.java:61-69 | a time is collected from an update list iff some update there has that stop id, has an arrival, and that arrival's time (0 when unset) equals it |
| Arrivals.FeedArrivalsMembership | src/main/java/edu/wit/SegmentHeadwayTracker.java:57-70 | a time is collected from the feed iff some entity with a trip update holds a stop-time update reporting the stop with that time; entities without a trip update contribute nothing |
| Arrivals.ScanUpdates | src/main/java/edu/wit/SegmentHeadwayTracker.java:61-69 | the inner loop appends to each stop list exactly the arrivals that the update list reports for that stop, in order, after what the list already held |
| Arrivals.ExtractArrivals | src/main/java/edu/wit/SegmentHeadwayTracker.java:53-70 | the one-pass loop fills the Sullivan list with exactly the `70030` arrivals and the Ruggles list with exactly the `70010` arrivals, in feed order |
| HeadwayAnalyzer.ToMinutesTruncates | src/main/java/edu/wit/SegmentHeadwayTracker.java:146 | the `/ 60` on a long matches Euclidean division on a non-negative gap, keeps the whole minutes below the gap, and truncates toward zero symmetrically |
| HeadwayAnalyzer.Sort | src/main/java/edu/wit/SegmentHeadwayTracker.java:144 | the sort yields an ascending permutation of the arrivals |
| HeadwayAnalyzer.SortedUnique | src/main/java/edu/wit/SegmentHeadwayTracker.java:144 | two ascending lists with the same elements are equal, so any correct ascending sort gives the same list |
| HeadwayAnalyzer.Gaps | src/main/java/edu/wit/SegmentHeadwayTracker.java:145-147 | gap list of a list of n ≥ 2 values has n−1 entries, entry k being (s[k+1]−s[k]) / 60 truncated; it is non-negative on an ascending list; empty for fewer than 2 values |
| HeadwayAnalyzer.ArrivalsAfterSort | src/main/java/edu/wit/SegmentHeadwayTracker.java:142-144 | after `computeHeadways` the argument list is an ascending permutation of what it held, and is untouched when it had fewer than 2 elements |
| HeadwayAnalyzer.Headways | src/main/java/edu/wit/SegmentHeadwayTracker.java:140-149 | fewer than 2 arrivals give an empty list; n ≥ 2 give n−1 headways, all non-negative |
| HeadwayAnalyzer.ComputeHeadways | src/main/java/edu/wit/SegmentHeadwayTracker.java:140-149 | the method returns the list as left by the in-place sort (an ascending permutation of the input, untouched below 2 elements) and headways whose entry k is (sorted[k+1]−sorted[k]) / 60, of length n−1 for n ≥ 2 and empty otherwise |
| HeadwayAnalyzer.HeadwaysIgnoreOrder | src/main/java/edu/wit/SegmentHeadwayTracker.java:144 | any permutation of the arrivals gives the same headway list (the sorted list is the same too, by `HeadwayAnalyzer.SortedUnique`) |
| HeadwayAnalyzer.ExampleOutOfOrderArrivals | src/main/java/edu/wit/SegmentHeadwayTracker.java:140-149 | arrivals [220, 100, 160] are left as [100, 160, 220] and give headways [1, 1] |
| HeadwayTracker.Sample | src/main/java/edu/wit/SegmentHeadwayTracker.java:73-74 | a stop's row cells hold the arrivals in their post-sort state (an ascending permutation, unchanged below 2) and n−1 non-negative headways |
| HeadwayTracker.RecordPollAppends | src/main/java/edu/wit/SegmentHeadwayTracker.java:73-92 | a successful poll appends exactly one row, and to each global history exactly that poll's headways; nothing recorded earlier changes and the history invariant is kept |
| HeadwayTracker.PollFrom | src/main/java/edu/wit/SegmentHeadwayTracker.java:40-103 | the last poll a run reaches lies between the poll it started from and the final poll; a run cut short ends at an undecodable poll (parse exception) or at a decoded poll whose pause was interrupted (that it is the first such poll is `HeadwayTracker.PollFromStopsAtFirst`) |
| HeadwayTracker.PollFromStopsAtFirst | src/main/java/edu/wit/SegmentHeadwayTracker.java:45-102 | every poll before the last one reached either failed to download or decoded and completed its pause, and for a completed run so did every poll including the final one; so the run ends at the FIRST parse exception or interrupted pause, and completes only when there is none |
| HeadwayTracker.PollFromKeepsHistory | src/main/java/edu/wit/SegmentHeadwayTracker.java:76-78 | rows and both histories only grow, and each history stays the concatenation of its segment's headway cells over the rows written |
| HeadwayTracker.PollFromCountsRows | src/main/java/edu/wit/SegmentHeadwayTracker.java:45-92 | rows written equal the decoded polls among those the run reached; a failed download writes none |
| HeadwayTracker.PollFromCountsSleeps | src/main/java/edu/wit/SegmentHeadwayTracker.java:73-102 | completed pauses equal rows written, minus one when the run ended in an interrupted pause |
| HeadwayTracker.PollFromRowsMatchPolls | src/main/java/edu/wit/SegmentHeadwayTracker.java:88-92 | every row carries the iteration of a decoded poll and that poll's Sullivan and Ruggles cells |
| HeadwayTracker.PollFromRowsInOrder | src/main/java/edu/wit/SegmentHeadwayTracker.java:40-103 | rows appear in strictly increasing iteration order, each new one from the current poll or a later one |
| HeadwayTracker.PollFromRowsReached | src/main/java/edu/wit/SegmentHeadwayTracker.java:50-102 | no row carries an iteration after the last poll the run reached: nothing is written after the poll whose parse or pause threw |
| HeadwayTracker.Track | src/main/java/edu/wit/SegmentHeadwayTracker.java:32-103 | over the 240 polls the histories equal the rows' headways concatenated; the run ends at the first undecodable poll or interrupted pause, and completes only if no poll (the 240th included) throws; the rows are one per decoded poll up to the last poll reached, and completed pauses equal rows (minus one after an interrupt); every row holds its poll's samples and rows are in iteration order |
| HeadwayTracker.FailedDownloadIsSkipped | src/main/java/edu/wit/SegmentHeadwayTracker.java:45-48 | a failed download changes nothing: the run proceeds from the next poll as if it had not happened |

## Left out

- HTTP fetching (`fetchUrl`, `fetchURL`, their timeouts and status checks) is not modelled. A fetch is an outcome in the tick or poll input.
- JSON decoding (Jackson) and protobuf decoding (`GtfsRealtime`) are not modelled. The records hold the values after decoding: `asText`/`asInt`/`asDouble` defaults are assumed applied, and the optional protobuf fields are `Option`s.
- `distanceMeters` (haversine in floating point) is not modelled. It is the parameter `dist`, and only the `<= 500.0` test against it is modelled.
- `stddev`, the averages and `printFinal` are floating point with `sqrt`. Only whether a run reaches the final summary (`Completed`) is modelled.
- Timestamps, CSV and console formatting, banners and the measured latency are not modelled. The CSV header line is also left out: both programs write it once at start, before any setup check.
- `Thread.sleep` durations and wall-clock time are not modelled. Only whether each pause completes or is interrupted is modelled. An interrupt arriving outside a pause is not modelled.
- Java `int` and `long` overflow is not modelled. Totals, arrival times and differences are unbounded integers.
- Rows still buffered in the headway program's `FileWriter` when an exception escapes `main` may never reach the file. The model counts them as written.
- `Collections.sort` (a merge sort) is represented by an insertion sort. `HeadwayAnalyzer.SortedUnique` shows that any ascending sort gives the same list.
- Failure to open either output file is not modelled.

=== FILE: arrivals.dfy ===
/** Collecting predicted arrival times at the two boundary stops from one
    decoded GTFS-realtime trip-updates feed. */
module Arrivals {
  import opened Common

  /** Boundary stop of the north segment (Malden to Sullivan). */
  const Sullivan: string := "70030"
  /** Boundary stop of the south segment (Forest Hills to Ruggles). */
  const Ruggles: string := "70010"

  /** A predicted arrival; `time` is an optional epoch-seconds field. */
  datatype StopTimeEvent = StopTimeEvent(time: Option<int>)

  datatype StopTimeUpdate = StopTimeUpdate(stopId: Option<string>, arrival: Option<StopTimeEvent>)

  /** A feed entity; only entities carrying a trip update list stop-time updates. */
  datatype FeedEntity = FeedEntity(tripUpdate: Option<seq<StopTimeUpdate>>)

  /** True when the update names `stop` and carries an arrival event. */
  predicate Reports(u: StopTimeUpdate, stop: string) {
    u.stopId == Some(stop) && u.arrival.Some?
  }

  /** `getArrival().getTime()`: an arrival event without a time reads as 0. */
  function ArrivalTime(u: StopTimeUpdate): int
    requires u.arrival.Some?
  {
    u.arrival.value.time.GetOr(0)
  }

  /** Arrival times, in feed order, of the updates that report `stop`. */
  function UpdateArrivals(us: seq<StopTimeUpdate>, stop: string): seq<int> {
    if us == [] then []
    else (if Reports(us[0], stop) then [ArrivalTime(us[0])] else []) + UpdateArrivals(us[1..], stop)
  }

  function EntityArrivals(e: FeedEntity, stop: string): seq<int> {
    match e.tripUpdate
    case None => []
    case Some(us) => UpdateArrivals(us, stop)
  }

  /** Arrival times at `stop` over the whole feed, entity by entity. */
  function FeedArrivals(feed: seq<FeedEntity>, stop: string): seq<int> {
    if feed == [] then [] else EntityArrivals(feed[0], stop) + FeedArrivals(feed[1..], stop)
  }

  /** Filtering commutes with concatenation of update lists: feed order is kept. */
  lemma {:induction false} UpdateArrivalsAppend(a: seq<StopTimeUpdate>, b: seq<StopTimeUpdate>, stop: string)
    ensures UpdateArrivals(a + b, stop) == UpdateArrivals(a, stop) + UpdateArrivals(b, stop)
  {
    if a != [] {
      assert (a + b)[1..] == a[1..] + b;
      UpdateArrivalsAppend(a[1..], b, stop);
    } else {
      assert a + b == b;
    }
  }

  /** Filtering commutes with concatenation of feeds: feed order is kept. */
  lemma {:induction false} FeedArrivalsAppend(a: seq<FeedEntity>, b: seq<FeedEntity>, stop: string)
    ensures FeedArrivals(a + b, stop) == FeedArrivals(a, stop) + FeedArrivals(b, stop)
  {
    if a != [] {
      assert (a + b)[1..] == a[1..] + b;
      FeedArrivalsAppend(a[1..], b, stop);
    } else {
      assert a + b == b;
    }
  }

  /** A time is collected from an update list exactly when some update in it
      reports `stop` with that arrival time. */
  lemma {:induction false} UpdateArrivalsMembership(us: seq<StopTimeUpdate>, stop: string, t: int)
    ensures t in UpdateArrivals(us, stop) <==>
            exists j :: 0 <= j < |us| && Reports(us[j], stop) && ArrivalTime(us[j]) == t
  {
    if us != [] {
      UpdateArrivalsMembership(us[1..], stop, t);
      if exists j :: 0 <= j < |us| && Reports(us[j], stop) && ArrivalTime(us[j]) == t {
        var j :| 0 <= j < |us| && Reports(us[j], stop) && ArrivalTime(us[j]) == t;
        if j > 0 {
          assert us[1..][j - 1] == us[j];
        }
      }
      if t in UpdateArrivals(us[1..], stop) {
        var j :| 0 <= j < |us[1..]| && Reports(us[1..][j], stop) && ArrivalTime(us[1..][j]) == t;
        assert us[j + 1] == us[1..][j];
      }
    }
  }

  /** A time is collected from the feed exactly when some entity with a trip
      update holds a stop-time update that reports `stop` at that time;
      entities without a trip update contribute nothing. */
  lemma {:induction false} FeedArrivalsMembership(feed: seq<FeedEntity>, stop: string, t: int)
    ensures t in FeedArrivals(feed, stop) <==>
            exists i, j :: 0 <= i < |feed| && feed[i].tripUpdate.Some? && 0 <= j < |feed[i].tripUpdate.value|
                        && Reports(feed[i].tripUpdate.value[j], stop) && ArrivalTime(feed[i].tripUpdate.value[j]) == t
  {
    if feed != [] {
      FeedArrivalsMembership(feed[1..], stop, t);
      if feed[0].tripUpdate.Some? {
        UpdateArrivalsMembership(feed[0].tripUpdate.value, stop, t);
      }
      if exists i, j :: 0 <= i < |feed| && feed[i].tripUpdate.Some? && 0 <= j < |feed[i].tripUpdate.value|
                     && Reports(feed[i].tripUpdate.value[j], stop) && ArrivalTime(feed[i].tripUpdate.value[j]) == t {
        var i, j :| 0 <= i < |feed| && feed[i].tripUpdate.Some? && 0 <= j < |feed[i].tripUpdate.value|
                 && Reports(feed[i].tripUpdate.value[j], stop) && ArrivalTime(feed[i].tripUpdate.value[j]) == t;
        if i > 0 {
          assert feed[1..][i - 1] == feed[i];
        }
      }
      if t in FeedArrivals(feed[1..], stop) {
        var i, j :| 0 <= i < |feed[1..]| && feed[1..][i].tripUpdate.Some? && 0 <= j < |feed[1..][i].tripUpdate.value|
                 && Reports(feed[1..][i].tripUpdate.value[j], stop) && ArrivalTime(feed[1..][i].tripUpdate.value[j]) == t;
        assert feed[i + 1] == feed[1..][i];
      }
    }
  }

  /** One more entity extends the collected arrivals by that entity's. */
  lemma FeedArrivalsStep(feed: seq<FeedEntity>, i: nat, stop: string)
    requires i < |feed|
    ensures FeedArrivals(feed[..i + 1], stop) == FeedArrivals(feed[..i], stop) + EntityArrivals(feed[i], stop)
  {
    FeedArrivalsAppend(feed[..i], [feed[i]], stop);
    assert feed[..i + 1] == feed[..i] + [feed[i]];
    assert [feed[i]][1..] == [];
  }

  /** The inner loop over one trip update's stop-time updates: each update
      with a stop id and an arrival appends its time to the list of the stop
      it names. */
  method ScanUpdates(us: seq<StopTimeUpdate>, sullivan0: seq<int>, ruggles0: seq<int>) returns (sullivan: seq<int>, ruggles: seq<int>)
    ensures sullivan == sullivan0 + UpdateArrivals(us, Sullivan)
    ensures ruggles == ruggles0 + UpdateArrivals(us, Ruggles)
  {
    sullivan, ruggles := sullivan0, ruggles0;
    var j := 0;
    while j < |us|
      invariant 0 <= j <= |us|
      invariant sullivan == sullivan0 + UpdateArrivals(us[..j], Sullivan)
      invariant ruggles == ruggles0 + UpdateArrivals(us[..j], Ruggles)
    {
      var u := us[j];
      UpdateArrivalsAppend(us[..j], [u], Sullivan);
      UpdateArrivalsAppend(us[..j], [u], Ruggles);
      assert us[..j + 1] == us[..j] + [u];
      if u.stopId.Some? && u.arrival.Some? {
        var arr := ArrivalTime(u);
        var stop := u.stopId.value;
        if stop == Sullivan {
          sullivan := sullivan + [arr];
        }
        if stop == Ruggles {
          ruggles := ruggles + [arr];
        }
      }
      j := j + 1;
    }
    assert us[..|us|] == us;
  }

  /** The extraction loop of the tracker's poll: one pass over the feed
      filling both stop lists; entities without a trip update are skipped. */
  method ExtractArrivals(feed: seq<FeedEntity>) returns (sullivan: seq<int>, ruggles: seq<int>)
    ensures sullivan == FeedArrivals(feed, Sullivan)
    ensures ruggles == FeedArrivals(feed, Ruggles)
  {
    sullivan, ruggles := [], [];
    var i := 0;
    while i < |feed|
      invariant 0 <= i <= |feed|
      invariant sullivan == FeedArrivals(feed[..i], Sullivan)
      invariant ruggles == FeedArrivals(feed[..i], Ruggles)
    {
      FeedArrivalsStep(feed, i, Sullivan);
      FeedArrivalsStep(feed, i, Ruggles);
      if feed[i].tripUpdate.Some? {
        sullivan, ruggles := ScanUpdates(feed[i].tripUpdate.value, sullivan, ruggles);
      }
      i := i + 1;
    }
    assert feed[..|feed|] == feed;
  }
}

=== FILE: capacity_aggregation.dfy ===
/** The per-tick reduction of the station-status feed into bike and capacity
    totals for the two segments. */
module CapacityAggregation {
  import opened Geofence

  /** One decoded entry of the station-status feed (missing counts read as 0). */
  datatype StationStatus = StationStatus(id: StationId, bikes: int, docks: int)

  datatype Totals = Totals(southBikes: int, southCapacity: int, northBikes: int, northCapacity: int)

  /** The totals a tick starts from, and keeps when its fetch fails. */
  const NoTotals := Totals(0, 0, 0, 0)

  function Bikes(st: StationStatus): int { st.bikes }

  function Docks(st: StationStatus): int { st.docks }

  /** A station's capacity: bikes plus free docks of the same status record. */
  function Capacity(st: StationStatus): int { st.bikes + st.docks }

  /** Reference sum of `f` over the status records whose id is in `ids`. */
  function SumOver(stations: seq<StationStatus>, ids: set<StationId>, f: StationStatus -> int): int {
    if stations == [] then 0
    else (if stations[0].id in ids then f(stations[0]) else 0) + SumOver(stations[1..], ids, f)
  }

  /** One pass of the station loop: two independent membership tests, so a
      station in both sets is added to both segments. */
  function Tally(t: Totals, st: StationStatus, m: Membership): (r: Totals)
    ensures st.id !in m.south && st.id !in m.north ==> r == t
    ensures st.id in m.south ==>
              r.southBikes == t.southBikes + st.bikes && r.southCapacity == t.southCapacity + st.bikes + st.docks
    ensures st.id in m.north ==>
              r.northBikes == t.northBikes + st.bikes && r.northCapacity == t.northCapacity + st.bikes + st.docks
    ensures st.id !in m.south ==> r.southBikes == t.southBikes && r.southCapacity == t.southCapacity
    ensures st.id !in m.north ==> r.northBikes == t.northBikes && r.northCapacity == t.northCapacity
  {
    var capacity := st.bikes + st.docks;
    var t1 := if st.id in m.south
              then t.(southBikes := t.southBikes + st.bikes, southCapacity := t.southCapacity + capacity)
              else t;
    if st.id in m.north
    then t1.(northBikes := t1.northBikes + st.bikes, northCapacity := t1.northCapacity + capacity)
    else t1
  }

  /** The station loop of one tick, folding `Tally` over the feed in order. */
  function Aggregate(stations: seq<StationStatus>, m: Membership): Totals {
    if stations == [] then NoTotals
    else Tally(Aggregate(stations[..|stations| - 1], m), stations[|stations| - 1], m)
  }

  lemma {:induction false} SumOverAppend(a: seq<StationStatus>, b: seq<StationStatus>, ids: set<StationId>, f: StationStatus -> int)
    ensures SumOver(a + b, ids, f) == SumOver(a, ids, f) + SumOver(b, ids, f)
  {
    if a == [] {
      assert a + b == b;
    } else {
      assert (a + b)[1..] == a[1..] + b;
      SumOverAppend(a[1..], b, ids, f);
    }
  }

  /** Each segment's totals are the sums of bikes and of capacity over exactly
      the status records whose id is in that segment's set. */
  lemma {:induction false} AggregateIsSegmentSums(stations: seq<StationStatus>, m: Membership)
    ensures Aggregate(stations, m) == Totals(
              SumOver(stations, m.south, Bikes), SumOver(stations, m.south, Capacity),
              SumOver(stations, m.north, Bikes), SumOver(stations, m.north, Capacity))
  {
    if stations != [] {
      var init, last := stations[..|stations| - 1], stations[|stations| - 1];
      AggregateIsSegmentSums(init, m);
      assert stations == init + [last];
      assert [last][1..] == [];
      SumOverAppend(init, [last], m.south, Bikes);
      SumOverAppend(init, [last], m.south, Capacity);
      SumOverAppend(init, [last], m.north, Bikes);
      SumOverAppend(init, [last], m.north, Capacity);
    }
  }

  /** Summed capacity is summed bikes plus summed free docks. */
  lemma {:induction false} CapacitySumIsBikesPlusDocks(stations: seq<StationStatus>, ids: set<StationId>)
    ensures SumOver(stations, ids, Capacity) == SumOver(stations, ids, Bikes) + SumOver(stations, ids, Docks)
  {
    if stations != [] {
      CapacitySumIsBikesPlusDocks(stations[1..], ids);
    }
  }

  /** A status record whose id is in neither set changes no total, wherever it
      appears in the feed. */
  lemma NonMemberIgnored(a: seq<StationStatus>, st: StationStatus, b: seq<StationStatus>, m: Membership)
    requires st.id !in m.south && st.id !in m.north
    ensures Aggregate(a + [st] + b, m) == Aggregate(a + b, m)
  {
    AggregateIsSegmentSums(a + [st] + b, m);
    AggregateIsSegmentSums(a + b, m);
    assert [st][1..] == [];
    forall ids, f | ids == m.south || ids == m.north
      ensures SumOver(a + [st] + b, ids, f) == SumOver(a + b, ids, f)
    {
      SumOverAppend(a + [st], b, ids, f);
      SumOverAppend(a, [st], ids, f);
      SumOverAppend(a, b, ids, f);
    }
  }

  /** A station id in both sets adds its bikes and capacity to both segments. */
  lemma SharedStationCountsTwice(a: seq<StationStatus>, st: StationStatus, m: Membership)
    requires st.id in m.south && st.id in m.north
    ensures Aggregate(a + [st], m).southBikes - Aggregate(a, m).southBikes == st.bikes
    ensures Aggregate(a + [st], m).northBikes - Aggregate(a, m).northBikes == st.bikes
    ensures Aggregate(a + [st], m).southCapacity - Aggregate(a, m).southCapacity == st.bikes + st.docks
    ensures Aggregate(a + [st], m).northCapacity - Aggregate(a, m).northCapacity == st.bikes + st.docks
  {
    assert (a + [st])[..|a + [st]| - 1] == a;
  }

  /** The status loop of one successful tick, as written. */
  method AggregateStatus(stations: seq<StationStatus>, m: Membership) returns (t: Totals)
    ensures t.southBikes == SumOver(stations, m.south, Bikes)
    ensures t.southCapacity == SumOver(stations, m.south, Capacity)
    ensures t.northBikes == SumOver(stations, m.north, Bikes)
    ensures t.northCapacity == SumOver(stations, m.north, Capacity)
    ensures t == Aggregate(stations, m)
  {
    var southBikes, southCapacity := 0, 0;
    var northBikes, northCapacity := 0, 0;
    var i := 0;
    while i < |stations|
      invariant 0 <= i <= |stations|
      invariant Totals(southBikes, southCapacity, northBikes, northCapacity) == Aggregate(stations[..i], m)
    {
      var st := stations[i];
      var capacity := st.bikes + st.docks;
      if st.id in m.south {
        southBikes := southBikes + st.bikes;
        southCapacity := southCapacity + capacity;
      }
      if st.id in m.north {
        northBikes := northBikes + st.bikes;
        northCapacity := northCapacity + capacity;
      }
      assert stations[..i + 1][..i] == stations[..i];
      i := i + 1;
    }
    assert stations[..|stations|] == stations;
    t := Totals(southBikes, southCapacity, northBikes, northCapacity);
    AggregateIsSegmentSums(stations, m);
  }

  /** Station A on the only reference point (5 bikes, 3 docks) and station B
      far from it: the segment sees 5 bikes and capacity 8, B is excluded. */
  lemma ExampleOneMemberOneFar()
    ensures Aggregate([StationStatus("A", 5, 3), StationStatus("B", 7, 9)], Membership({"A"}, {}))
            == Totals(5, 8, 0, 0)
  {
    var s := [StationStatus("A", 5, 3), StationStatus("B", 7, 9)];
    assert s[..1] == [s[0]];
    assert s[..1][..0] == [];
  }
}

=== FILE: capacity_collector.dfy ===
/** The capacity program's control flow: one-time setup (coordinates and
    segment membership), then a fixed number of ticks, each writing one row. */
module CapacityCollector {
  import opened Common
  import opened Geofence
  import opened CapacityAggregation

  /** Ticks per run. */
  const NumIterations: nat := 240

  /** The one-time station-information fetch: the request throws, the body is
      not JSON (parsing yields an empty map), or it decodes to entries. */
  datatype InfoFetch = InfoFetchFailed | InfoUnparsable | InfoDecoded(infos: seq<StationInfo>)

  /** One tick's station-status fetch: it throws before the station loop
      (request or JSON error), or decodes to a list of status records. */
  datatype StatusFetch = StatusFailed | StatusDecoded(stations: seq<StationStatus>)

  /** What the environment does during tick `i`: the status fetch, and how the
      pause after the tick ends (ignored after the last tick, which has none). */
  datatype Tick = Tick(status: StatusFetch, sleep: SleepOutcome)

  /** A CSV data row: iteration number and the four totals. */
  datatype CapacityRow = CapacityRow(iteration: int, totals: Totals)

  /** Rows written, pauses completed, and whether an interrupt ended the loop. */
  datatype Polled = Polled(rows: seq<CapacityRow>, sleeps: nat, interrupted: bool)

  datatype CapacityRun =
    | SetupAborted                  // the info fetch threw; the outer handler ends the program
    | NoStationData                 // the coordinate map is empty; `main` returns
    | Collected(membership: Membership, polled: Polled)

  /** The totals one tick writes: zero when the fetch failed before the
      station loop, otherwise the segment sums of that tick's feed. */
  function TickTotals(status: StatusFetch, m: Membership): (t: Totals)
    ensures status.StatusFailed? ==> t == NoTotals
    ensures status.StatusDecoded? ==>
              && t.southBikes == SumOver(status.stations, m.south, Bikes)
              && t.southCapacity == SumOver(status.stations, m.south, Capacity)
              && t.northBikes == SumOver(status.stations, m.north, Bikes)
              && t.northCapacity == SumOver(status.stations, m.north, Capacity)
  {
    match status
    case StatusFailed => NoTotals
    case StatusDecoded(stations) =>
      AggregateIsSegmentSums(stations, m);
      Aggregate(stations, m)
  }

  /** Ticks `i` to `|ticks|` of the polling loop: write the row, then pause
      only if another tick follows; an interrupted pause breaks the loop. */
  function PollTicks(i: nat, ticks: seq<Tick>, m: Membership): (p: Polled)
    requires 1 <= i <= |ticks| + 1
    ensures |p.rows| <= |ticks| + 1 - i
    ensures i > |ticks| ==> p == Polled([], 0, false)
    ensures i <= |ticks| ==> |p.rows| >= 1 && p.sleeps == |p.rows| - 1
    ensures !p.interrupted ==> |p.rows| == |ticks| + 1 - i
    ensures p.interrupted ==>
              && |p.rows| < |ticks| + 1 - i
              && ticks[i - 2 + |p.rows|].sleep == WokenByInterrupt
    ensures forall k :: 0 <= k < |p.rows| ==>
              p.rows[k] == CapacityRow(i + k, TickTotals(ticks[i - 1 + k].status, m))
    ensures forall j :: i - 1 <= j < i - 2 + |p.rows| ==> ticks[j].sleep == Slept
    decreases |ticks| + 1 - i
  {
    if i > |ticks| then Polled([], 0, false)
    else
      var row := CapacityRow(i, TickTotals(ticks[i - 1].status, m));
      if i == |ticks| then Polled([row], 0, false)
      else if ticks[i - 1].sleep == WokenByInterrupt then Polled([row], 0, true)
      else
        var rest := PollTicks(i + 1, ticks, m);
        assert ticks[i - 1].sleep == Slept;
        Polled([row] + rest.rows, rest.sleeps + 1, rest.interrupted)
  }

  /** The whole program: setup, then `NumIterations` ticks. */
  function Collect(info: InfoFetch, dist: (Coord, Coord) -> real, ticks: seq<Tick>): (r: CapacityRun)
    requires |ticks| == NumIterations
    ensures r.Collected? <==> info.InfoDecoded? && info.infos != []
    ensures r.SetupAborted? <==> info.InfoFetchFailed?
    ensures r.Collected? ==> r.membership == Segments(CoordinateMap(info.infos), dist)
    ensures r.Collected? ==> r.polled == PollTicks(1, ticks, r.membership)
  {
    match info
    case InfoFetchFailed => SetupAborted
    case InfoUnparsable => NoStationData
    case InfoDecoded(infos) =>
      var coords := CoordinateMap(infos);
      CoordinateMapSpec(infos);
      if coords.Keys == {} then NoStationData
      else
        var m := Segments(coords, dist);
        Collected(m, PollTicks(1, ticks, m))
  }

  /** Without an interrupt, the loop writes one row per iteration 1..N in
      order and pauses N-1 times (never after the last tick). */
  lemma UninterruptedRunWritesEveryRow(ticks: seq<Tick>, m: Membership)
    requires |ticks| >= 1
    requires forall k :: 0 <= k < |ticks| - 1 ==> ticks[k].sleep == Slept
    ensures var p := PollTicks(1, ticks, m);
            && !p.interrupted
            && |p.rows| == |ticks|
            && p.sleeps == |ticks| - 1
            && forall k :: 0 <= k < |ticks| ==> p.rows[k].iteration == k + 1
  {
  }

  /** Three ticks whose second fetch fails: three rows, the second one
      carrying iteration 2 and zero totals. */
  lemma ExampleSecondTickFails(a: seq<StationStatus>, c: seq<StationStatus>, m: Membership)
    ensures var p := PollTicks(1, [Tick(StatusDecoded(a), Slept), Tick(StatusFailed, Slept), Tick(StatusDecoded(c), Slept)], m);
            && |p.rows| == 3
            && p.rows[1] == CapacityRow(2, NoTotals)
            && p.sleeps == 2
  {
  }
}

=== FILE: common.dfy ===
/** Vocabulary shared by the capacity collector and the headway tracker. */
module Common {

  /** A field a decoded feed record may lack. */
  datatype Option<+T> = None | Some(value: T) {

    /** The carried value, or `default` when the field is absent. */
    function GetOr(default: T): T {
      match this
      case Some(v) => v
      case None => default
    }
  }

  /** How the pause between two polls ended: it ran its full length, or the
      thread was interrupted while waiting. */
  datatype SleepOutcome = Slept | WokenByInterrupt
}

=== FILE: geofence.dfy ===
/** Station coordinates and the one-time assignment of bike-share stations to
    the two Orange Line segments. Great-circle distance is a parameter `dist`
    (metres between a station and a reference point); only the radius test
    against it is modelled. */
module Geofence {

  type StationId = string

  /** Decimal degrees. */
  datatype Coord = Coord(lat: real, lon: real)

  /** A named Orange Line station anchoring a segment. */
  datatype RefPoint = RefPoint(name: string, at: Coord)

  /** One decoded entry of the station-information feed (a missing id reads as
      "" and a missing coordinate as 0.0). */
  datatype StationInfo = StationInfo(id: StationId, lat: real, lon: real)

  /** Stations assigned to each segment; a station may be in both or neither. */
  datatype Membership = Membership(south: set<StationId>, north: set<StationId>)

  const RadiusMeters: real := 500.0

  /** Forest Hills to Ruggles. */
  const SouthOrange: seq<RefPoint> := [
    RefPoint("Forest Hills", Coord(42.2988, -71.1131)),
    RefPoint("Green Street", Coord(42.3106, -71.1074)),
    RefPoint("Stony Brook", Coord(42.3173, -71.1041)),
    RefPoint("Jackson Square", Coord(42.3233, -71.0996)),
    RefPoint("Roxbury Crossing", Coord(42.3313, -71.0956)),
    RefPoint("Ruggles", Coord(42.3364, -71.0892))
  ]

  /** Malden Center to Sullivan. */
  const NorthOrange: seq<RefPoint> := [
    RefPoint("Malden Center", Coord(42.4267, -71.0744)),
    RefPoint("Wellington", Coord(42.4024, -71.0771)),
    RefPoint("Assembly", Coord(42.3927, -71.0772)),
    RefPoint("Sullivan", Coord(42.3840, -71.0770))
  ]

  /** No later entry of `infos` repeats the id of entry `k`. */
  predicate LastWithId(infos: seq<StationInfo>, k: int)
    requires 0 <= k < |infos|
  {
    forall j :: k < j < |infos| ==> infos[j].id != infos[k].id
  }

  /** `parseStationCoordinates` over the decoded entries: `map.put` in feed
      order, so a repeated id keeps its last coordinates. */
  function CoordinateMap(infos: seq<StationInfo>): map<StationId, Coord> {
    if infos == [] then map[]
    else
      var last := infos[|infos| - 1];
      CoordinateMap(infos[..|infos| - 1])[last.id := Coord(last.lat, last.lon)]
  }

  /** `m` has a key for exactly the ids that occur in `infos`. */
  ghost predicate KeysAreIds(m: map<StationId, Coord>, infos: seq<StationInfo>) {
    forall id :: id in m <==> exists k :: 0 <= k < |infos| && infos[k].id == id
  }

  /** `m` binds every id to the coordinates of its last entry in `infos`. */
  ghost predicate LastEntriesKept(m: map<StationId, Coord>, infos: seq<StationInfo>) {
    forall k :: 0 <= k < |infos| && LastWithId(infos, k) && infos[k].id in m ==>
      m[infos[k].id] == Coord(infos[k].lat, infos[k].lon)
  }

  /** The coordinate map has a key for exactly the ids in the feed, each bound
      to the coordinates of its last entry, and it is empty only for an empty
      feed. */
  lemma {:induction false} CoordinateMapSpec(infos: seq<StationInfo>)
    ensures KeysAreIds(CoordinateMap(infos), infos)
    ensures LastEntriesKept(CoordinateMap(infos), infos)
    ensures CoordinateMap(infos).Keys == {} <==> infos == []
  {
    if infos != [] {
      var init := infos[..|infos| - 1];
      var last := infos[|infos| - 1];
      CoordinateMapSpec(init);
      assert infos == init + [last];
      assert CoordinateMap(infos) == CoordinateMap(init)[last.id := Coord(last.lat, last.lon)];
      CoordinateMapStep(init, last, CoordinateMap(init));
    }
  }

  /** The inductive step of `CoordinateMap`: putting the last entry into the
      map built from the others. */
  lemma CoordinateMapStep(init: seq<StationInfo>, last: StationInfo, m0: map<StationId, Coord>)
    requires KeysAreIds(m0, init) && LastEntriesKept(m0, init)
    ensures KeysAreIds(m0[last.id := Coord(last.lat, last.lon)], init + [last])
    ensures LastEntriesKept(m0[last.id := Coord(last.lat, last.lon)], init + [last])
    ensures m0[last.id := Coord(last.lat, last.lon)].Keys != {}
  {
    var infos, m := init + [last], m0[last.id := Coord(last.lat, last.lon)];
    var n := |init|;
    forall id | id in m
      ensures exists k :: 0 <= k < |infos| && infos[k].id == id
    {
      if id != last.id {
        var k :| 0 <= k < n && init[k].id == id;
        assert infos[k] == init[k];
      } else {
        assert infos[n] == last;
      }
    }
    forall id | exists k :: 0 <= k < |infos| && infos[k].id == id
      ensures id in m
    {
      var k :| 0 <= k < |infos| && infos[k].id == id;
      if k < n {
        assert init[k] == infos[k];
      }
    }
    forall k | 0 <= k < |infos| && LastWithId(infos, k)
      ensures m[infos[k].id] == Coord(infos[k].lat, infos[k].lon)
    {
      if k < n {
        assert infos[n] == last;
        assert infos[k].id != last.id;
        assert infos[k] == init[k];
        assert infos[k].id in m0;
        assert LastWithId(init, k) by {
          forall j | k < j < |init|
            ensures init[j].id != init[k].id
          {
            assert init[j] == infos[j];
          }
        }
      }
    }
    assert last.id in m.Keys;
  }

  /** The station lies within the radius of the reference point. */
  predicate Within(dist: (Coord, Coord) -> real, c: Coord, p: RefPoint) {
    dist(c, p.at) <= RadiusMeters
  }

  /** Some reference point of `pts` is within the radius of `c`. */
  predicate NearAny(dist: (Coord, Coord) -> real, c: Coord, pts: seq<RefPoint>) {
    exists k :: 0 <= k < |pts| && Within(dist, c, pts[k])
  }

  /** The membership `assignStationsToSegments` produces, stated as sets. */
  function Segments(coords: map<StationId, Coord>, dist: (Coord, Coord) -> real): Membership {
    Membership(
      set id | id in coords && NearAny(dist, coords[id], SouthOrange),
      set id | id in coords && NearAny(dist, coords[id], NorthOrange))
  }

  /** The inner loop over one segment's reference points, stopping at the
      first one within the radius. */
  method FirstWithin(dist: (Coord, Coord) -> real, c: Coord, pts: seq<RefPoint>) returns (hit: bool)
    ensures hit <==> NearAny(dist, c, pts)
  {
    var k := 0;
    while k < |pts|
      invariant 0 <= k <= |pts|
      invariant forall j :: 0 <= j < k ==> !Within(dist, c, pts[j])
    {
      if dist(c, pts[k].at) <= RadiusMeters {
        return true;
      }
      k := k + 1;
    }
    return false;
  }

  /** `assignStationsToSegments`: every station of the coordinate map is
      tested against both segments independently. */
  method AssignStationsToSegments(coords: map<StationId, Coord>, dist: (Coord, Coord) -> real)
    returns (m: Membership)
    ensures m.south <= coords.Keys && m.north <= coords.Keys
    ensures forall id :: id in m.south <==> id in coords && NearAny(dist, coords[id], SouthOrange)
    ensures forall id :: id in m.north <==> id in coords && NearAny(dist, coords[id], NorthOrange)
    ensures m == Segments(coords, dist)
  {
    var south: set<StationId> := {};
    var north: set<StationId> := {};
    var pending := coords.Keys;
    while pending != {}
      invariant pending <= coords.Keys
      invariant forall id :: id in south <==> id in coords && id !in pending && NearAny(dist, coords[id], SouthOrange)
      invariant forall id :: id in north <==> id in coords && id !in pending && NearAny(dist, coords[id], NorthOrange)
      decreases pending
    {
      var id :| id in pending;
      var inSouth := FirstWithin(dist, coords[id], SouthOrange);
      if inSouth {
        south := south + {id};
      }
      var inNorth := FirstWithin(dist, coords[id], NorthOrange);
      if inNorth {
        north := north + {id};
      }
      pending := pending - {id};
    }
    m := Membership(south, north);
  }

  /** A station standing exactly on a reference point (distance zero) is a
      member of that point's segment. */
  lemma StationOnReferencePointIsMember(coords: map<StationId, Coord>, dist: (Coord, Coord) -> real, id: StationId)
    requires id in coords
    requires forall c :: dist(c, c) == 0.0
    ensures (exists k :: 0 <= k < |SouthOrange| && coords[id] == SouthOrange[k].at) ==> id in Segments(coords, dist).south
    ensures (exists k :: 0 <= k < |NorthOrange| && coords[id] == NorthOrange[k].at) ==> id in Segments(coords, dist).north
  {
  }
}

=== FILE: headway_tracker.dfy ===
/** The headway program's control flow: a fixed number of polls of the
    trip-updates feed, each successful one writing a row and extending the
    global per-segment headway histories. */
module HeadwayTracker {
  import opened Common
  import opened Arrivals
  import opened HeadwayAnalyzer

  /** Polls per run. */
  const NumPolls: nat := 240

  /** What the environment does during one poll: the download fails (`null`
      bytes), the bytes are not a feed message (the parse exception escapes
      `main`), or they decode to feed entities; for a decoded poll, how the
      pause after it ends. */
  datatype Poll = DownloadFailed | Undecodable | Decoded(feed: seq<FeedEntity>, sleep: SleepOutcome)

  /** One stop's cells of a row: the arrival list as `computeHeadways` left
      it, and the headways in minutes. */
  datatype StopSample = StopSample(arrivals: seq<int>, headways: seq<int>)

  /** A CSV data row (Sullivan is the north segment, Ruggles the south). */
  datatype HeadwayRow = HeadwayRow(iteration: int, sullivan: StopSample, ruggles: StopSample)

  /** Rows written, the two global histories, and pauses completed. */
  datatype Tracker = Tracker(rows: seq<HeadwayRow>, northHistory: seq<int>, southHistory: seq<int>, sleeps: nat)

  const Start := Tracker([], [], [], 0)

  /** How a run ends: all polls done (final summary printed), or an exception
      escaped `main` during poll `iteration`. */
  datatype Ending = Completed | ParseAborted(iteration: int) | InterruptAborted(iteration: int)

  datatype TrackerRun = TrackerRun(tracker: Tracker, ending: Ending)

  /** One stop's cells of a row, from the arrivals collected for that stop. */
  function Sample(arrivals: seq<int>): (s: StopSample)
    ensures Sorted(s.arrivals) && multiset(s.arrivals) == multiset(arrivals)
    ensures |arrivals| < 2 ==> s.arrivals == arrivals && s.headways == []
    ensures |arrivals| >= 2 ==> |s.headways| == |arrivals| - 1
    ensures forall k :: 0 <= k < |s.headways| ==> s.headways[k] >= 0
  {
    StopSample(ArrivalsAfterSort(arrivals), Headways(arrivals))
  }

  /** What a successful poll computes from its feed: the Sullivan and the
      Ruggles cells. The poll loop below takes this as a parameter `analyze`
      so that its bookkeeping is stated independently of the arithmetic. */
  function Analyze(feed: seq<FeedEntity>): (StopSample, StopSample) {
    (Sample(FeedArrivals(feed, Sullivan)), Sample(FeedArrivals(feed, Ruggles)))
  }

  /** The row a successful poll `i` of `feed` writes. */
  function RowFor(i: int, feed: seq<FeedEntity>, analyze: seq<FeedEntity> -> (StopSample, StopSample)): HeadwayRow {
    HeadwayRow(i, analyze(feed).0, analyze(feed).1)
  }

  /** All Sullivan headways of `rows`, in row order. */
  function NorthOf(rows: seq<HeadwayRow>): seq<int> {
    if rows == [] then [] else NorthOf(rows[..|rows| - 1]) + rows[|rows| - 1].sullivan.headways
  }

  /** All Ruggles headways of `rows`, in row order. */
  function SouthOf(rows: seq<HeadwayRow>): seq<int> {
    if rows == [] then [] else SouthOf(rows[..|rows| - 1]) + rows[|rows| - 1].ruggles.headways
  }

  /** Each global history is exactly the concatenation of its segment's
      headway cells over the rows written so far. */
  predicate HistoryMatchesRows(t: Tracker) {
    t.northHistory == NorthOf(t.rows) && t.southHistory == SouthOf(t.rows)
  }

  /** The body of a successful poll: write its row and append its headways
      to the global histories. */
  function RecordPoll(t: Tracker, i: int, feed: seq<FeedEntity>, analyze: seq<FeedEntity> -> (StopSample, StopSample)): Tracker {
    var row := RowFor(i, feed, analyze);
    Tracker(t.rows + [row], t.northHistory + row.sullivan.headways, t.southHistory + row.ruggles.headways, t.sleeps)
  }

  /** A successful poll appends exactly one row and, to each history, exactly
      that poll's headways; what was recorded before is kept, and the history
      invariant is preserved. */
  lemma RecordPollAppends(t: Tracker, i: int, feed: seq<FeedEntity>, analyze: seq<FeedEntity> -> (StopSample, StopSample))
    ensures var r := RecordPoll(t, i, feed, analyze);
            && r.rows == t.rows + [RowFor(i, feed, analyze)]
            && r.northHistory == t.northHistory + analyze(feed).0.headways
            && r.southHistory == t.southHistory + analyze(feed).1.headways
            && r.sleeps == t.sleeps
            && (HistoryMatchesRows(t) ==> HistoryMatchesRows(r))
  {
    var r := RecordPoll(t, i, feed, analyze);
    assert r.rows[..|r.rows| - 1] == t.rows;
  }

  function CountDecoded(polls: seq<Poll>): nat {
    if polls == [] then 0 else (if polls[0].Decoded? then 1 else 0) + CountDecoded(polls[1..])
  }

  /** Index of the last poll the run reached. */
  function LastPoll(e: Ending, n: int): int {
    match e
    case Completed => n
    case ParseAborted(j) => j
    case InterruptAborted(j) => j
  }

  /** Polls `i` to `|polls|`: a failed download `continue`s (no row, no
      pause); an undecodable message or an interrupted pause ends the run. */
  function PollFrom(i: nat, polls: seq<Poll>, t: Tracker, analyze: seq<FeedEntity> -> (StopSample, StopSample)): (r: TrackerRun)
    requires 1 <= i <= |polls| + 1
    ensures i - 1 <= LastPoll(r.ending, |polls|) <= |polls|
    ensures r.ending.ParseAborted? ==> i <= r.ending.iteration && polls[r.ending.iteration - 1].Undecodable?
    ensures r.ending.InterruptAborted? ==>
              && i <= r.ending.iteration
              && polls[r.ending.iteration - 1].Decoded?
              && polls[r.ending.iteration - 1].sleep == WokenByInterrupt
    decreases |polls| + 1 - i
  {
    if i > |polls| then TrackerRun(t, Completed)
    else
      match polls[i - 1]
      case DownloadFailed => PollFrom(i + 1, polls, t, analyze)
      case Undecodable => TrackerRun(t, ParseAborted(i))
      case Decoded(feed, sleep) =>
        var t1 := RecordPoll(t, i, feed, analyze);
        RecordPollAppends(t, i, feed, analyze);
        if sleep == WokenByInterrupt then TrackerRun(t1, InterruptAborted(i))
        else PollFrom(i + 1, polls, t1.(sleeps := t1.sleeps + 1), analyze)
  }

  /** The histories only grow, and stay the concatenation of the rows'
      headway cells. */
  lemma {:induction false} PollFromKeepsHistory(i: nat, polls: seq<Poll>, t: Tracker, analyze: seq<FeedEntity> -> (StopSample, StopSample))
    requires 1 <= i <= |polls| + 1
    ensures var r := PollFrom(i, polls, t, analyze);
            && t.rows <= r.tracker.rows
            && t.northHistory <= r.tracker.northHistory
            && t.southHistory <= r.tracker.southHistory
            && (HistoryMatchesRows(t) ==> HistoryMatchesRows(r.tracker))
    decreases |polls| + 1 - i
  {
    if i <= |polls| {
      var p := polls[i - 1];
      if p.DownloadFailed? {
        assert PollFrom(i, polls, t, analyze) == PollFrom(i + 1, polls, t, analyze);
        PollFromKeepsHistory(i + 1, polls, t, analyze);
      } else if p.Decoded? {
        var t1 := RecordPoll(t, i, p.feed, analyze);
        RecordPollAppends(t, i, p.feed, analyze);
        if p.sleep == Slept {
          var t2 := t1.(sleeps := t1.sleeps + 1);
          assert PollFrom(i, polls, t, analyze) == PollFrom(i + 1, polls, t2, analyze);
          PollFromKeepsHistory(i + 1, polls, t2, analyze);
        }
      }
    }
  }

  /** One row per decoded poll reached; a failed download writes none. */
  lemma {:induction false} PollFromCountsRows(i: nat, polls: seq<Poll>, t: Tracker, analyze: seq<FeedEntity> -> (StopSample, StopSample))
    requires 1 <= i <= |polls| + 1
    ensures var r := PollFrom(i, polls, t, analyze);
            |r.tracker.rows| == |t.rows| + CountDecoded(polls[i - 1..LastPoll(r.ending, |polls|)])
    decreases |polls| + 1 - i
  {
    if i <= |polls| {
      var r := PollFrom(i, polls, t, analyze);
      var e := LastPoll(r.ending, |polls|);
      var p := polls[i - 1];
      if p.DownloadFailed? {
        assert r == PollFrom(i + 1, polls, t, analyze);
        PollFromCountsRows(i + 1, polls, t, analyze);
        assert polls[i - 1..e][1..] == polls[i..e];
      } else if p.Undecodable? {
        assert polls[i - 1..e] == [p];
      } else {
        var t1 := RecordPoll(t, i, p.feed, analyze);
        RecordPollAppends(t, i, p.feed, analyze);
        if p.sleep == Slept {
          var t2 := t1.(sleeps := t1.sleeps + 1);
          assert r == PollFrom(i + 1, polls, t2, analyze);
          PollFromCountsRows(i + 1, polls, t2, analyze);
          assert polls[i - 1..e][1..] == polls[i..e];
        } else {
          assert polls[i - 1..e] == [p];
        }
      }
    }
  }

  /** One completed pause per row written, except for a row whose pause was
      interrupted. */
  lemma {:induction false} PollFromCountsSleeps(i: nat, polls: seq<Poll>, t: Tracker, analyze: seq<FeedEntity> -> (StopSample, StopSample))
    requires 1 <= i <= |polls| + 1
    ensures var r := PollFrom(i, polls, t, analyze);
            r.tracker.sleeps + (if r.ending.InterruptAborted? then 1 else 0) == t.sleeps + |r.tracker.rows| - |t.rows|
    decreases |polls| + 1 - i
  {
    if i <= |polls| {
      var p := polls[i - 1];
      if p.DownloadFailed? {
        assert PollFrom(i, polls, t, analyze) == PollFrom(i + 1, polls, t, analyze);
        PollFromCountsSleeps(i + 1, polls, t, analyze);
      } else if p.Decoded? {
        var t1 := RecordPoll(t, i, p.feed, analyze);
        RecordPollAppends(t, i, p.feed, analyze);
        if p.sleep == Slept {
          var t2 := t1.(sleeps := t1.sleeps + 1);
          assert PollFrom(i, polls, t, analyze) == PollFrom(i + 1, polls, t2, analyze);
          PollFromCountsSleeps(i + 1, polls, t2, analyze);
        }
      }
    }
  }

  /** Every poll from `i` up to, not including, poll `last` let the loop go
      on: its download failed, or it decoded and its pause completed. */
  predicate PassedThrough(polls: seq<Poll>, i: int, last: int) {
    forall q :: i - 1 <= q < last - 1 && 0 <= q < |polls| ==>
      polls[q].DownloadFailed? || (polls[q].Decoded? && polls[q].sleep == Slept)
  }

  /** The run stops at the FIRST poll whose parse or pause throws: every
      poll before the last one reached let the loop go on. */
  lemma {:induction false} PollFromStopsAtFirst(i: nat, polls: seq<Poll>, t: Tracker, analyze: seq<FeedEntity> -> (StopSample, StopSample))
    requires 1 <= i <= |polls| + 1
    ensures PassedThrough(polls, i, LastPoll(PollFrom(i, polls, t, analyze).ending, |polls|))
    ensures PollFrom(i, polls, t, analyze).ending.Completed? ==> PassedThrough(polls, i, |polls| + 1)
    decreases |polls| + 1 - i
  {
    if i <= |polls| {
      var p := polls[i - 1];
      if p.DownloadFailed? {
        assert PollFrom(i, polls, t, analyze) == PollFrom(i + 1, polls, t, analyze);
        PollFromStopsAtFirst(i + 1, polls, t, analyze);
      } else if p.Decoded? {
        var t1 := RecordPoll(t, i, p.feed, analyze);
        if p.sleep == Slept {
          var t2 := t1.(sleeps := t1.sleeps + 1);
          assert PollFrom(i, polls, t, analyze) == PollFrom(i + 1, polls, t2, analyze);
          PollFromStopsAtFirst(i + 1, polls, t2, analyze);
        }
      }
    }
  }

  /** `row` is the row that poll `row.iteration`, a decoded poll, writes. */
  predicate WrittenBy(row: HeadwayRow, polls: seq<Poll>, analyze: seq<FeedEntity> -> (StopSample, StopSample)) {
    && 1 <= row.iteration <= |polls|
    && polls[row.iteration - 1].Decoded?
    && row == RowFor(row.iteration, polls[row.iteration - 1].feed, analyze)
  }

  /** Every row from index `from` on was written by a decoded poll at or
      after poll `i`. */
  predicate NewRowsWrittenBy(rows: seq<HeadwayRow>, from: nat, i: int, polls: seq<Poll>, analyze: seq<FeedEntity> -> (StopSample, StopSample)) {
    forall k :: from <= k < |rows| ==> i <= rows[k].iteration && WrittenBy(rows[k], polls, analyze)
  }

  /** Every new row belongs to a decoded poll at or after poll `i` and
      carries that poll's iteration and analysis (`PollFromRowsReached`
      bounds it by the last poll reached). */
  lemma {:induction false} PollFromRowsMatchPolls(i: nat, polls: seq<Poll>, t: Tracker, analyze: seq<FeedEntity> -> (StopSample, StopSample))
    requires 1 <= i <= |polls| + 1
    ensures NewRowsWrittenBy(PollFrom(i, polls, t, analyze).tracker.rows, |t.rows|, i, polls, analyze)
    decreases |polls| + 1 - i
  {
    if i <= |polls| {
      var p := polls[i - 1];
      if p.DownloadFailed? {
        assert PollFrom(i, polls, t, analyze) == PollFrom(i + 1, polls, t, analyze);
        PollFromRowsMatchPolls(i + 1, polls, t, analyze);
      } else if p.Decoded? {
        var t1 := RecordPoll(t, i, p.feed, analyze);
        RecordPollAppends(t, i, p.feed, analyze);
        if p.sleep == Slept {
          var t2 := t1.(sleeps := t1.sleeps + 1);
          assert PollFrom(i, polls, t, analyze) == PollFrom(i + 1, polls, t2, analyze);
          PollFromRowsMatchPolls(i + 1, polls, t2, analyze);
          PollFromKeepsHistory(i + 1, polls, t2, analyze);
          var rows := PollFrom(i + 1, polls, t2, analyze).tracker.rows;
          assert rows[|t.rows|] == t2.rows[|t.rows|] == RowFor(i, p.feed, analyze);
        }
      }
    }
  }

  /** Rows from index `from` on have strictly increasing iterations. */
  predicate InIterationOrderFrom(rows: seq<HeadwayRow>, from: nat) {
    forall k, l :: from <= k < l < |rows| ==> rows[k].iteration < rows[l].iteration
  }

  predicate InIterationOrder(rows: seq<HeadwayRow>) {
    InIterationOrderFrom(rows, 0)
  }

  /** Rows from index `from` on carry iterations of at least `i`. */
  predicate IterationsFrom(rows: seq<HeadwayRow>, from: nat, i: int) {
    forall k :: from <= k < |rows| ==> i <= rows[k].iteration
  }

  /** Rows from index `from` on carry iterations of at most `last`. */
  predicate IterationsAtMost(rows: seq<HeadwayRow>, from: nat, last: int) {
    forall k :: from <= k < |rows| ==> rows[k].iteration <= last
  }

  /** Every new row comes from a poll the run reached: none is written after
      the poll whose parse or pause threw. */
  lemma {:induction false} PollFromRowsReached(i: nat, polls: seq<Poll>, t: Tracker, analyze: seq<FeedEntity> -> (StopSample, StopSample))
    requires 1 <= i <= |polls| + 1
    ensures var r := PollFrom(i, polls, t, analyze);
            IterationsAtMost(r.tracker.rows, |t.rows|, LastPoll(r.ending, |polls|))
    decreases |polls| + 1 - i
  {
    if i <= |polls| {
      var p := polls[i - 1];
      if p.DownloadFailed? {
        assert PollFrom(i, polls, t, analyze) == PollFrom(i + 1, polls, t, analyze);
        PollFromRowsReached(i + 1, polls, t, analyze);
      } else if p.Decoded? {
        var t1 := RecordPoll(t, i, p.feed, analyze);
        RecordPollAppends(t, i, p.feed, analyze);
        if p.sleep == Slept {
          var t2 := t1.(sleeps := t1.sleeps + 1);
          assert PollFrom(i, polls, t, analyze) == PollFrom(i + 1, polls, t2, analyze);
          PollFromRowsReached(i + 1, polls, t2, analyze);
          PollFromKeepsHistory(i + 1, polls, t2, analyze);
          var r := PollFrom(i + 1, polls, t2, analyze);
          assert r.tracker.rows[|t.rows|].iteration == i;
        }
      }
    }
  }

  /** A row of iteration `i` followed by ordered rows of later iterations
      is still ordered. */
  lemma OrderExtendsBack(rows: seq<HeadwayRow>, from: nat, i: int)
    requires from < |rows| && rows[from].iteration == i
    requires InIterationOrderFrom(rows, from + 1) && IterationsFrom(rows, from + 1, i + 1)
    ensures InIterationOrderFrom(rows, from) && IterationsFrom(rows, from, i)
  {
    forall k, l | from <= k < l < |rows|
      ensures rows[k].iteration < rows[l].iteration
    {
      if k == from {
        assert from + 1 <= l;
      }
    }
  }

  /** Rows appear in strictly increasing iteration order, each new one from
      poll `i` or later. */
  lemma {:induction false} PollFromRowsInOrder(i: nat, polls: seq<Poll>, t: Tracker, analyze: seq<FeedEntity> -> (StopSample, StopSample))
    requires 1 <= i <= |polls| + 1
    ensures InIterationOrderFrom(PollFrom(i, polls, t, analyze).tracker.rows, |t.rows|)
    ensures IterationsFrom(PollFrom(i, polls, t, analyze).tracker.rows, |t.rows|, i)
    decreases |polls| + 1 - i
  {
    if i <= |polls| {
      var p := polls[i - 1];
      if p.DownloadFailed? {
        assert PollFrom(i, polls, t, analyze) == PollFrom(i + 1, polls, t, analyze);
        PollFromRowsInOrder(i + 1, polls, t, analyze);
      } else if p.Decoded? {
        var t1 := RecordPoll(t, i, p.feed, analyze);
        RecordPollAppends(t, i, p.feed, analyze);
        if p.sleep == Slept {
          var t2 := t1.(sleeps := t1.sleeps + 1);
          assert PollFrom(i, polls, t, analyze) == PollFrom(i + 1, polls, t2, analyze);
          PollFromRowsInOrder(i + 1, polls, t2, analyze);
          PollFromKeepsHistory(i + 1, polls, t2, analyze);
          var rows := PollFrom(i + 1, polls, t2, analyze).tracker.rows;
          assert rows[|t.rows|].iteration == i;
          OrderExtendsBack(rows, |t.rows|, i);
        }
      }
    }
  }

  /** `row` was written by poll `row.iteration`, a decoded poll, and holds
      that poll's Sullivan and Ruggles samples. */
  predicate RowOfPoll(row: HeadwayRow, polls: seq<Poll>) {
    && 1 <= row.iteration <= |polls|
    && polls[row.iteration - 1].Decoded?
    && row.sullivan == Sample(FeedArrivals(polls[row.iteration - 1].feed, Sullivan))
    && row.ruggles == Sample(FeedArrivals(polls[row.iteration - 1].feed, Ruggles))
  }

  /** The whole program: `NumPolls` polls from an empty tracker. */
  function Track(polls: seq<Poll>): (r: TrackerRun)
    requires |polls| == NumPolls
    ensures HistoryMatchesRows(r.tracker)
    ensures r.ending.Completed? ==> |r.tracker.rows| == CountDecoded(polls) && r.tracker.sleeps == |r.tracker.rows|
    ensures r.ending.ParseAborted? ==> 1 <= r.ending.iteration <= NumPolls && polls[r.ending.iteration - 1].Undecodable?
    ensures r.ending.InterruptAborted? ==>
              && 1 <= r.ending.iteration <= NumPolls
              && polls[r.ending.iteration - 1].Decoded?
              && polls[r.ending.iteration - 1].sleep == WokenByInterrupt
    ensures PassedThrough(polls, 1, LastPoll(r.ending, NumPolls))
    ensures r.ending.Completed? ==> PassedThrough(polls, 1, NumPolls + 1)
    ensures forall k :: 0 <= k < |r.tracker.rows| ==> r.tracker.rows[k].iteration <= LastPoll(r.ending, NumPolls)
    ensures |r.tracker.rows| == CountDecoded(polls[..LastPoll(r.ending, NumPolls)])
    ensures r.tracker.sleeps + (if r.ending.InterruptAborted? then 1 else 0) == |r.tracker.rows|
    ensures forall k :: 0 <= k < |r.tracker.rows| ==> RowOfPoll(r.tracker.rows[k], polls)
    ensures InIterationOrder(r.tracker.rows)
  {
    StartCounts(polls);
    StartRows(polls);
    PollFromRowsInOrder(1, polls, Start, Analyze);
    PollFromStopsAtFirst(1, polls, Start, Analyze);
    PollFromRowsReached(1, polls, Start, Analyze);
    PollFrom(1, polls, Start, Analyze)
  }

  /** From the empty tracker the histories are the rows' headways, and a
      completed run has one row and one pause per decoded poll. */
  lemma StartCounts(polls: seq<Poll>)
    ensures var r := PollFrom(1, polls, Start, Analyze);
            && HistoryMatchesRows(r.tracker)
            && |r.tracker.rows| == CountDecoded(polls[..LastPoll(r.ending, |polls|)])
            && r.tracker.sleeps + (if r.ending.InterruptAborted? then 1 else 0) == |r.tracker.rows|
            && (r.ending.Completed? ==> |r.tracker.rows| == CountDecoded(polls) && r.tracker.sleeps == |r.tracker.rows|)
  {
    var r := PollFrom(1, polls, Start, Analyze);
    PollFromKeepsHistory(1, polls, Start, Analyze);
    PollFromCountsRows(1, polls, Start, Analyze);
    PollFromCountsSleeps(1, polls, Start, Analyze);
    assert polls[0..LastPoll(r.ending, |polls|)] == polls[..LastPoll(r.ending, |polls|)];
    assert polls[..|polls|] == polls;
  }

  /** From the empty tracker every row holds its decoded poll's samples. */
  lemma StartRows(polls: seq<Poll>)
    ensures var rows := PollFrom(1, polls, Start, Analyze).tracker.rows;
            forall k :: 0 <= k < |rows| ==> RowOfPoll(rows[k], polls)
  {
    var an := Analyze;
    var rows := PollFrom(1, polls, Start, an).tracker.rows;
    PollFromRowsMatchPolls(1, polls, Start, an);
    assert NewRowsWrittenBy(rows, 0, 1, polls, an);
    forall k | 0 <= k < |rows|
      ensures RowOfPoll(rows[k], polls)
    {
      assert WrittenBy(rows[k], polls, an);
    }
  }

  /** A failed download changes nothing: the run continues with the next poll
      as if this one had not happened. */
  lemma FailedDownloadIsSkipped(i: nat, polls: seq<Poll>, t: Tracker, analyze: seq<FeedEntity> -> (StopSample, StopSample))
    requires 1 <= i <= |polls| && polls[i - 1].DownloadFailed?
    ensures PollFrom(i, polls, t, analyze) == PollFrom(i + 1, polls, t, analyze)
  {
  }
}

=== FILE: headways.dfy ===
/** Headway extraction: sort one poll's predicted arrival times at a boundary
    stop and turn consecutive gaps into whole minutes. */
module HeadwayAnalyzer {

  const SecondsPerMinute: int := 60

  /** Java's `seconds / 60` on a `long`: the quotient truncated toward zero
      (Dafny's own `/` is Euclidean and differs for a negative dividend). */
  function ToMinutes(seconds: int): int {
    if seconds >= 0 then seconds / SecondsPerMinute else -((-seconds) / SecondsPerMinute)
  }

  /** Truncation agrees with Euclidean division on a non-negative gap, rounds
      toward zero, and is symmetric about zero. */
  lemma ToMinutesTruncates(seconds: int)
    ensures seconds >= 0 ==> ToMinutes(seconds) == seconds / SecondsPerMinute
    ensures seconds >= 0 ==> 0 <= ToMinutes(seconds) * SecondsPerMinute <= seconds < (ToMinutes(seconds) + 1) * SecondsPerMinute
    ensures ToMinutes(-seconds) == -ToMinutes(seconds)
  {
  }

  predicate Sorted(s: seq<int>) {
    forall i, j :: 0 <= i < j < |s| ==> s[i] <= s[j]
  }

  /** Putting a value no larger than the head in front keeps a sequence ascending. */
  lemma SortedCons(h: int, t: seq<int>)
    requires Sorted(t) && (|t| > 0 ==> h <= t[0])
    ensures Sorted([h] + t)
  {
    var r := [h] + t;
    forall i, j | 0 <= i < j < |r|
      ensures r[i] <= r[j]
    {
      if i == 0 {
        assert r[j] == t[j - 1] >= t[0];
      }
    }
  }

  /** Inserts `x` into an ascending sequence, keeping it ascending. */
  function Insert(x: int, s: seq<int>): (r: seq<int>)
    requires Sorted(s)
    ensures Sorted(r)
    ensures multiset(r) == multiset(s) + multiset{x}
    ensures |r| == |s| + 1
    ensures r[0] == x || (|s| > 0 && r[0] == s[0])
  {
    if s == [] then [x]
    else if x <= s[0] then SortedCons(x, s); [x] + s
    else
      var t := Insert(x, s[1..]);
      assert s == [s[0]] + s[1..];
      SortedCons(s[0], t);
      [s[0]] + t
  }

  /** Ascending sort of the arrival list; it stands in for `Collections.sort`,
      whose result is the same because a sorted permutation is unique
      (see `SortedUnique`). */
  function Sort(s: seq<int>): (r: seq<int>)
    ensures Sorted(r)
    ensures multiset(r) == multiset(s)
    ensures |r| == |s|
  {
    if s == [] then []
    else
      assert s == [s[0]] + s[1..];
      Insert(s[0], Sort(s[1..]))
  }

  /** Two ascending sequences holding the same elements are equal. */
  lemma {:induction false} SortedUnique(a: seq<int>, b: seq<int>)
    requires Sorted(a) && Sorted(b)
    requires multiset(a) == multiset(b)
    ensures a == b
  {
    assert |a| == |multiset(a)| == |multiset(b)| == |b|;
    if a != [] {
      assert a[0] in multiset(b);
      assert b[0] in multiset(a);
      assert a[0] == b[0];
      assert a == [a[0]] + a[1..];
      assert b == [b[0]] + b[1..];
      assert multiset(a) == multiset{a[0]} + multiset(a[1..]);
      assert multiset(b) == multiset{b[0]} + multiset(b[1..]);
      assert multiset(a[1..]) == multiset(a) - multiset{a[0]};
      assert multiset(b[1..]) == multiset(b) - multiset{b[0]};
      SortedUnique(a[1..], b[1..]);
    }
  }

  /** Gaps between neighbours of `s`, in whole minutes (the differencing loop of `computeHeadways`). */
  function Gaps(s: seq<int>): (d: seq<int>)
    ensures |s| < 2 ==> d == []
    ensures |s| >= 2 ==> |d| == |s| - 1
    ensures forall k :: 0 <= k < |d| ==> d[k] == ToMinutes(s[k + 1] - s[k])
    ensures Sorted(s) ==> forall k :: 0 <= k < |d| ==> d[k] >= 0
  {
    if |s| < 2 then [] else [ToMinutes(s[1] - s[0])] + Gaps(s[1..])
  }

  /** The state `computeHeadways` leaves its argument in: sorted in place when
      it has at least two elements, untouched otherwise. */
  function ArrivalsAfterSort(arrivals: seq<int>): (r: seq<int>)
    ensures Sorted(r)
    ensures multiset(r) == multiset(arrivals)
    ensures |r| == |arrivals|
    ensures |arrivals| < 2 ==> r == arrivals
  {
    if |arrivals| < 2 then arrivals else Sort(arrivals)
  }

  /** The list `computeHeadways` returns. */
  function Headways(arrivals: seq<int>): (hw: seq<int>)
    ensures |arrivals| < 2 ==> hw == []
    ensures |arrivals| >= 2 ==> |hw| == |arrivals| - 1
    ensures forall k :: 0 <= k < |hw| ==> hw[k] >= 0
  {
    if |arrivals| < 2 then [] else Gaps(Sort(arrivals))
  }

  /** A list with one entry per neighbouring pair of `s`, each the gap in
      minutes, is `Gaps(s)`. */
  lemma {:induction false} GapsByElements(s: seq<int>, d: seq<int>)
    requires |s| >= 1 && |d| == |s| - 1
    requires forall k :: 0 <= k < |d| ==> d[k] == ToMinutes(s[k + 1] - s[k])
    ensures d == Gaps(s)
  {
    if |s| >= 2 {
      GapsByElements(s[1..], d[1..]);
    }
  }

  /** `computeHeadways` as written: returns the post-call state of the
      argument list together with the headway list. */
  method ComputeHeadways(arrivals: seq<int>) returns (sorted: seq<int>, hw: seq<int>)
    ensures Sorted(sorted) && multiset(sorted) == multiset(arrivals)
    ensures |arrivals| < 2 ==> sorted == arrivals
    ensures sorted == ArrivalsAfterSort(arrivals)
    ensures |arrivals| >= 2 ==> |hw| == |arrivals| - 1
    ensures |arrivals| < 2 ==> hw == []
    ensures forall k :: 0 <= k < |hw| ==> hw[k] == ToMinutes(sorted[k + 1] - sorted[k])
    ensures hw == Headways(arrivals)
  {
    sorted := ArrivalsAfterSort(arrivals);
    if |arrivals| < 2 {
      return sorted, [];
    }
    hw := [];
    var i := 1;
    while i < |sorted|
      invariant 1 <= i <= |sorted|
      invariant |hw| == i - 1
      invariant forall k :: 0 <= k < |hw| ==> hw[k] == ToMinutes(sorted[k + 1] - sorted[k])
    {
      hw := hw + [ToMinutes(sorted[i] - sorted[i - 1])];
      i := i + 1;
    }
    GapsByElements(sorted, hw);
  }

  /** The headways of one poll do not depend on the order in which the feed
      listed the arrivals. */
  lemma {:induction false} HeadwaysIgnoreOrder(a: seq<int>, b: seq<int>)
    requires multiset(a) == multiset(b)
    ensures Headways(a) == Headways(b)
  {
    assert |a| == |multiset(a)| == |multiset(b)| == |b|;
    if |a| >= 2 {
      SortedUnique(Sort(a), Sort(b));
    }
  }

  /** Arrivals listed out of order at 220 s, 100 s and 160 s are one minute apart. */
  lemma ExampleOutOfOrderArrivals()
    ensures ArrivalsAfterSort([220, 100, 160]) == [100, 160, 220]
    ensures Headways([220, 100, 160]) == [1, 1]
  {
    ExampleSort();
    ExampleGaps();
  }

  lemma ExampleGaps()
    ensures Gaps([100, 160, 220]) == [1, 1]
  {
    var s := [100, 160, 220];
    assert s[1..] == [160, 220];
    assert s[1..][1..] == [220];
    assert ToMinutes(60) == 1;
  }

  lemma ExampleSort()
    ensures Sort([220, 100, 160]) == [100, 160, 220]
  {
    assert Sort([160]) == Insert(160, []) == [160];
    assert [100, 160][1..] == [160];
    assert Sort([100, 160]) == Insert(100, [160]) == [100, 160];
    assert [220, 100, 160][1..] == [100, 160];
    assert Insert(220, [160]) == [160, 220];
    assert Insert(220, [100, 160]) == [100, 160, 220];
  }
}
